=== FILE: README.md ===
# Geofence alert monitor of localarm's `Map` component

localarm is a map client that follows the user's live position and alerts
them when they arrive at a destination. The user places a destination marker
and picks an alert radius. When the live position comes within that radius,
the client plays an alert sound and asks the device to vibrate. All of this
logic sits in the `Map` React component (`src/components/Map.tsx`). This
project models that logic as an immutable state record with one pure
transition per handler, and proves properties of it in Dafny.

- `Options`: `Option<T>`, used for the component's nullable values.
- `Geo`: coordinates, the fallback centre, and the geofence test
  `Within(metric, location, marker, radius)`, which means `distance <= radius`.
  The distance is Leaflet's `distanceTo`. It is a `Metric` parameter, so every
  result holds for any distance function.
- `Alert`: the audio element (`paused`, `position`, meaning `currentTime`, and
  `ended`) and its `play`, stop-and-rewind, playback-progress and end-of-clip
  transitions. Also the vibration
  pattern `[500, 500, 500]`.
- `MapUpdater`: the child component's effect. It calls `setView` once, for the
  first centre with a non-zero latitude.
- `Monitor`: the state (`radius`, `center`, `liveLocation`, `marker`,
  `updateMode`, `isInRadius`, the audio element, the log of vibration
  requests, whether the platform can vibrate, and the map-view state). It has
  one function per handler: `checkLocationInCircle`, position fix and
  position error, interval tick, map click, search selection, the
  Update/Done, Locate and Clear buttons, the slider, and the audio mount
  effect.
- `Session`: events, `Step`, `Run`, and the invariants every run keeps.
- `Scenarios`: concrete sessions with the distances given as facts about the
  metric.

In these places the code does something a reader might not expect, and the model follows the code:

- Moving the slider only sets the radius. It does not clamp (the slider widget
  does that) and it does not re-evaluate. The next interval tick re-evaluates.
- Setting a new marker (by click or by search) does not reset `isInRadius`. A
  user inside the old geofence who places a new marker that also covers them
  gets no second alert. `Scenarios.MovedMarkerKeepsStaleInside` shows this.
- With a marker set but no live location, a tick changes nothing. The state is
  not forced to "outside".
- The audio element is not looped. The clip plays once and then pauses at its
  end. The model has an end-of-clip event for this, and a later `play()` starts
  the clip again from 0.

## Model

| member | source | states |
|---|---|---|
| Monitor.Initial | src/components/Map.tsx:46-54 | At mount: radius 300, centre `[0, 0]`, no live location, no marker, update mode off, outside, no audio element yet, `updateMap` off, and a map view not yet initialised with no `setView` call |
| Monitor.Evaluate | src/components/Map.tsx:124-158 | `isInRadius` afterwards holds exactly when a marker exists and distance <= radius, whatever the previous state. Outside (including with no marker) the sound is paused at 0 and nothing is vibrated. On entry the sound plays from its position and one pattern is requested if the platform can vibrate. Already inside, nothing changes. Only the alert fields ever change |
| Monitor.OnPosition | src/components/Map.tsx:71-76 | A fix becomes the live location and the centre, and `isInRadius` is then decided by the distance from that fix to the marker |
| Monitor.OnPositionError | src/components/Map.tsx:77-81 | A position error moves only the centre, to `[51.505, -0.09]`. The live location stays |
| Monitor.Tick | src/components/Map.tsx:97-116 | A tick changes nothing unless both a marker and a live location exist. If both exist, it evaluates the live location and `isInRadius` follows the distance test |
| Monitor.MapClick | src/components/Map.tsx:160-166 | In update mode a click sets the marker to the clicked point and leaves update mode, and nothing else changes. Outside update mode the click is ignored |
| Monitor.SearchSelect | src/components/SearchField.tsx:41-44 | A geocoder result `{x, y}` becomes the marker `[y, x]`, whatever the update mode. Nothing else changes, not even `isInRadius` |
| Monitor.ToggleUpdateMode | src/components/Map.tsx:184 | The button flips `updateMode` and nothing else |
| Monitor.Clear | src/components/Map.tsx:168-175 | Clear removes the marker, sets outside, and pauses the sound at 0. The live location, radius, update mode, centre and vibration log stay |
| Monitor.Locate | src/components/Map.tsx:118-122 | Locate moves the centre to the live location when there is one, and otherwise does nothing |
| Monitor.SetRadius | src/components/Map.tsx:264-270 | The slider sets the radius and changes nothing else. In particular it does not re-evaluate |
| Monitor.MountAudio | src/components/Map.tsx:59-66 | The mount effect installs a fresh audio element, paused at 0 |
| Monitor.AudioPlayed | src/components/Map.tsx:137-139 | Playback progress moves only the audio element. It stays present (or absent), playing or paused, and ended or not, as it was. A playing element moves forward by exactly the elapsed time. A paused element, or a step that is not forward in time, leaves the state unchanged |
| Monitor.AudioEnded | src/components/Map.tsx:61 | The clip is not looped. When a playing clip ends, the element stops, is marked ended and keeps its end position. Otherwise nothing changes |
| Monitor.Render | src/components/Map.tsx:248-253 | Only the map view changes. It becomes initialised at the first non-zero centre latitude, and only then is `setView` logged, for that centre at zoom 16 |
| Monitor.Vibrate | src/components/Map.tsx:140-142 | On entry the vibration log gains exactly one entry, `[500, 500, 500]`, when the platform can vibrate, and stays as it was otherwise. Earlier entries are kept |
| Monitor.EvaluateBoundary | src/components/Map.tsx:134 | With a marker, a location exactly one radius away evaluates as inside and one any further away evaluates as outside |
| Monitor.EvaluateIdempotent | src/components/Map.tsx:134-150 | Evaluating twice at the same location equals evaluating once, so the alert fires once per entry and stopping twice is harmless |
| Monitor.ClearIsQuiet | src/components/Map.tsx:151-157 | After Clear, evaluation at any location and a tick both leave the state exactly as Clear left it |
| Monitor.OneMarkerPerUpdate | src/components/Map.tsx:160-166 | In update mode only the first click places a marker. Later clicks are ignored until the button is pressed again |
| Monitor.ToggleTwice | src/components/Map.tsx:184 | Pressing the button twice restores the state |
| Alert.Stop | src/components/Map.tsx:146-149 | Stopping keeps the element present (or absent), leaves it paused at position 0, and not playing |
| Alert.PlayIfPaused | src/components/Map.tsx:137-139 | An existing element ends up playing. A paused one resumes from its position, or from 0 if it had played to the end. One already playing is left unchanged |
| Alert.Progress | src/components/Map.tsx:138 | While the sound plays, time moving forward advances the position by that amount. Progress never changes whether the element is paused or ended. A paused element, or a step that is not forward in time, is unchanged |
| Alert.Ended | src/components/Map.tsx:61 | A playing clip that reaches its end stops, is marked ended and stays at its end position. A paused element is unchanged |
| Alert.StopIdempotent | src/components/Map.tsx:144-157 | Stopping an already stopped alert changes nothing |
| Alert.ReplayAfterEndStartsOver | src/components/Map.tsx:137-139 | A clip that ends and is played again starts from 0 |
| Geo.FromSearchResult | src/components/SearchField.tsx:42-43 | The geocoder's `x` is the longitude and its `y` is the latitude |
| Geo.Within | src/components/Map.tsx:134 | The geofence test counts a position exactly one radius away as inside and any further away as outside |
| MapUpdater.Sync | src/components/Map.tsx:293-305 | Afterwards the view is initialised exactly when it already was or the centre's latitude is non-zero. `setView` is added only on the first non-zero centre. `updateMap` is cleared except when an initialised view sees a non-zero centre |
| MapUpdater.SyncIdempotent | src/components/Map.tsx:293-305 | Re-running the effect with the same inputs changes nothing, so running it after every event equals running it when its dependencies change |
| MapUpdater.FirstNonZero | src/components/Map.tsx:294 | Returns the earliest centre in the sequence with a non-zero latitude, and none exactly when every latitude is zero |
| MapUpdater.SetViewOnce | src/components/Map.tsx:293-305 | Over any sequence of centres, `setView` is called once for the first centre with a non-zero latitude if the view was not yet initialised, and never otherwise |
| MapUpdater.SetViewAtMostOnce | src/components/Map.tsx:291-298 | From mount, `setView` is called at most once |
| Session.Step | src/components/Map.tsx:68-184 | Every handler keeps the invariant: inside only with a marker, sound audible only inside, only the alert pattern in the vibration log, `setView` once if initialised and only at a non-zero latitude. A vibration is logged exactly when the step enters the geofence. The sound starts only on entry. Without a marker-placing event, a cleared monitor stays without a marker and outside |
| Session.InitialInv | src/components/Map.tsx:46-54 | The mount state satisfies the invariant |
| Session.RunKeepsInv | src/components/Map.tsx:68-184 | Every state reached by any sequence of events from an invariant state keeps the invariant |
| Session.SessionSafety | src/components/Map.tsx:124-175 | From mount, after any events: inside only with a marker, sound audible only inside, and the map view set at most once |
| Session.VibratesOncePerEntry | src/components/Map.tsx:134-143 | Over any run, the number of vibration requests equals the number of entries into the geofence if the platform can vibrate, and is zero otherwise |
| Session.ClearedStaysOutside | src/components/Map.tsx:168-175 | After Clear, no sequence of events without a click or search selection brings back a marker or the inside state |
| Session.StaysOutside | src/components/Map.tsx:151-157 | A state without a marker and outside stays so under any events that cannot place a marker |
| Scenarios.AlertAtMarker | src/components/Map.tsx:134-143 | Live location at the marker, radius 300: inside, sound playing from 0, and one vibration pattern |
| Scenarios.NoAlertFarAway | src/components/Map.tsx:144-150 | Marker more than 300 m away: outside, sound at rest, and no vibration |
| Scenarios.ClearStopsAlert | src/components/Map.tsx:168-175 | After the alert has played for 2.5 s, Clear pauses it and rewinds it to 0. A later fix at the old marker keeps it off |
| Scenarios.ClipEndsInside | src/components/Map.tsx:61 | While the user is inside, 4 s of playback followed by the end of the clip leave the monitor inside and the element paused and ended at 4 s |
| Scenarios.ReentryReplaysFromStart | src/components/Map.tsx:134-150 | If the clip ends while the user is inside, leaving rewinds it. Coming back plays it from 0 with a second vibration |
| Scenarios.WiderRadiusEnters | src/components/Map.tsx:264-270 | At 1000 m, moving the radius from 300 to 5000 makes the next tick enter, with sound and one vibration |
| Scenarios.MovedMarkerKeepsStaleInside | src/components/SearchField.tsx:43 | Moving the marker while inside keeps `isInRadius` true. If the new geofence also holds the user, there is no new alert |

## Left out

- React scheduling and closure capture. Each handler is a transition on the current state. In the running component the `watchPosition` callback is created with empty dependencies, so it sees the initial `marker = null`. The interval closure also captures older `liveLocation` and `isInRadius` values. The model does not reproduce those interleavings. As a result, the position callback always takes the no-marker branch: each fix clears `isInRadius` and pauses and rewinds the sound. The interval callback keeps the `isInRadius` of the render where `marker` or `radius` last changed. If that value was false, every tick inside the radius starts the sound and vibrates again. So "once per entry" (`Session.VibratesOncePerEntry`) and the re-evaluation in `Monitor.OnPosition` hold for the model's transitions, not for the shipped component.
- The interval's start and cancellation (`setInterval`/`clearInterval`). A tick is an event, and it has no effect without a marker, which is what a stopped interval amounts to.
- Leaflet's geodesic distance. It is floating-point code in a library outside this model, so it is the `Metric` parameter. NaN distances and floating-point rounding are not modelled.
- Audio and vibration platform APIs. `play()` may be rejected by autoplay policy and `navigator.vibrate` may be missing or fail. The model keeps the requested state and a `canVibrate` flag, and the platform's success is not modelled. Playback progress is a host event. It carries the elapsed time and is not tied to a clock or to the clip's real length.
- The audio unmount cleanup (`pause()` and `remove()` on unmount). It ends the session.
- Geolocation options (`enableHighAccuracy`, `maximumAge`, `timeout`) and the "geolocation not supported" branch, which only logs.
- Rendering: JSX, icons, popups, the circle display, and the radius label `(radius / 1000).toFixed(1)`, which is float formatting.
- The slider's bounds. The radius is any real number. The slider starts at 300 with a maximum of 5000 and step 10, and these bounds are not enforced by the model.
- The search control's provider setup and geocoding requests. Only the `[y, x]` swap of a selected result is modelled.
- `console.log` calls, the page wiring, and the build and packaging configuration.

=== FILE: alert.dfy ===
/** The two alert devices the component drives: an audio element and
    the vibration motor.

    The audio element is reduced to what the component reads and
    writes, whether it is `paused` and its `currentTime` (`position`),
    and whether playback has reached the end of the clip (`ended`),
    which decides where a later `play()` starts.
    The ref holding it is `null` until the mount effect has run, so the
    component works on an `Option<Audio>`. Vibration requests are
    fire-and-forget; the model keeps a log of the patterns requested. */
module Alert {
  import opened Options

  datatype Audio = Audio(paused: bool, position: real, ended: bool)

  /** The vibration pattern requested on entry: on 500 ms, off 500 ms,
      on 500 ms. */
  const Pattern: seq<nat> := [500, 500, 500]

  /** A newly constructed audio element: paused at the start. */
  const Fresh: Audio := Audio(true, 0.0, false)

  /** The sound is audible. */
  predicate Playing(a: Option<Audio>)
  {
    a.Some? && !a.value.paused
  }

  /** The sound is stopped and rewound, or there is no element yet. */
  predicate AtRest(a: Option<Audio>)
  {
    a.Some? ==> a.value.paused && a.value.position == 0.0 && !a.value.ended
  }

  /** `pause()` followed by `currentTime = 0`, skipped when the ref is
      still null. Seeking to the start also clears `ended`. */
  function Stop(a: Option<Audio>): (r: Option<Audio>)
    ensures r.Some? <==> a.Some?
    ensures AtRest(r) && !Playing(r)
  {
    match a
    case None => None
    case Some(_) => Some(Audio(true, 0.0, false))
  }

  /** `play()` when the element exists and is paused. A paused element
      resumes from its current position, except that one which played to
      the end starts over from 0; an element already playing is left
      alone. */
  function PlayIfPaused(a: Option<Audio>): (r: Option<Audio>)
    ensures r.Some? <==> a.Some?
    ensures a.Some? ==> Playing(r)
    ensures a.Some? && a.value.paused ==>
      (!r.value.ended && r.value.position == (if a.value.ended then 0.0 else a.value.position))
    ensures Playing(a) ==> r == a
  {
    match a
    case Some(audio) =>
      if !audio.paused then a
      else if audio.ended then Some(Audio(false, 0.0, false))
      else Some(audio.(paused := false))
    case None => None
  }

  /** Playback advances by `elapsed` seconds while the sound is audible;
      a paused element, or a step that is not forward in time, leaves it
      where it is. */
  function Progress(a: Option<Audio>, elapsed: real): (r: Option<Audio>)
    ensures r.Some? <==> a.Some?
    ensures Playing(r) <==> Playing(a)
    ensures Playing(a) && elapsed > 0.0 ==> r.value.position == a.value.position + elapsed
    ensures r.Some? ==> r.value.ended == a.value.ended && r.value.paused == a.value.paused
    ensures !Playing(a) || elapsed <= 0.0 ==> r == a
  {
    match a
    case Some(audio) =>
      if !audio.paused && elapsed > 0.0 then Some(audio.(position := audio.position + elapsed))
      else a
    case None => None
  }

  /** The element reaches the end of the clip. It is not looped, so it
      stops by itself, its position staying at the end of the clip. */
  function Ended(a: Option<Audio>): (r: Option<Audio>)
    ensures r.Some? <==> a.Some?
    ensures !Playing(r)
    ensures Playing(a) ==> r.value.ended && r.value.position == a.value.position
    ensures !Playing(a) ==> r == a
  {
    match a
    case Some(audio) =>
      if !audio.paused then Some(audio.(paused := true, ended := true)) else a
    case None => None
  }

  /** Stopping a stopped alert has no further effect. */
  lemma StopIdempotent(a: Option<Audio>)
    ensures Stop(Stop(a)) == Stop(a)
  {
  }

  /** A clip that played to its end and is then played again starts over:
      ending followed by `play()` is a rewind. */
  lemma ReplayAfterEndStartsOver(a: Option<Audio>)
    requires Playing(a)
    ensures PlayIfPaused(Ended(a)) == Some(Audio(false, 0.0, false))
  {
  }
}

=== FILE: geo.dfy ===
/** Geographic coordinates and the distance used by the geofence.

    The component measures distance with Leaflet's `distanceTo`, a
    floating-point great-circle computation in a library outside this
    model. It enters the model as a `Metric` parameter: every property
    below holds for whatever distance function the host provides. */
module Geo {

  /** A `[latitude, longitude]` pair in degrees. */
  datatype Coord = Coord(lat: real, lng: real)

  /** The distance, in metres, between a live position and a marker. */
  type Metric = (Coord, Coord) -> real

  /** The initial map centre `[0, 0]`, also read as "no fix yet". */
  const Origin: Coord := Coord(0.0, 0.0)

  /** The centre used when the position source reports an error. */
  const FallbackCenter: Coord := Coord(51.505, -0.09)

  /** The geofence test: a position is inside when its distance to the
      marker is at most the radius, so the boundary itself is inside and
      anything further away is outside. */
  function Within(metric: Metric, location: Coord, marker: Coord, radius: real): (inside: bool)
    ensures metric(location, marker) == radius ==> inside
    ensures metric(location, marker) > radius ==> !inside
  {
    metric(location, marker) <= radius
  }

  /** A geocoder result carries `x` (longitude) and `y` (latitude); the
      marker is the pair in `[lat, lng]` order. */
  function FromSearchResult(x: real, y: real): (c: Coord)
    ensures c.lat == y && c.lng == x
  {
    Coord(y, x)
  }
}

=== FILE: map_updater.dfy ===
/** The `MapUpdater` child component: an effect that moves the map view
    to the centre once, the first time the centre has a non-zero
    latitude, and otherwise only clears the parent's `updateMap` flag.

    `initialized` is the component's ref; `views` logs the `setView`
    calls made on the map; `updateMap` is the parent's flag the effect
    writes. */
module MapUpdater {
  import opened Options
  import opened Geo

  /** The zoom level the parent passes to `MapUpdater`. */
  const Zoom: int := 16

  datatype View = View(center: Coord, zoom: int)

  datatype MapView = MapView(initialized: bool, views: seq<View>, updateMap: bool)

  const Initial: MapView := MapView(false, [], false)

  /** The effect as it runs for `center` and `zoom`. */
  function Sync(v: MapView, center: Coord, zoom: int): (r: MapView)
    ensures r.initialized <==> v.initialized || center.lat != 0.0
    ensures r.views == v.views || (!v.initialized && center.lat != 0.0 && r.views == v.views + [View(center, zoom)])
    ensures !v.initialized && center.lat != 0.0 ==> |r.views| == |v.views| + 1
    ensures r.updateMap == (v.updateMap && v.initialized && center.lat != 0.0)
  {
    if center.lat != 0.0 then
      if !v.initialized then MapView(true, v.views + [View(center, zoom)], false)
      else v
    else
      v.(updateMap := false)
  }

  /** The effect may run more often than its dependencies change without
      any observable difference. */
  lemma SyncIdempotent(v: MapView, center: Coord, zoom: int)
    ensures Sync(Sync(v, center, zoom), center, zoom) == Sync(v, center, zoom)
  {
  }

  /** The effect run once for each centre in turn. */
  function SyncAll(v: MapView, centers: seq<Coord>, zoom: int): MapView
    decreases |centers|
  {
    if centers == [] then v else SyncAll(Sync(v, centers[0], zoom), centers[1..], zoom)
  }

  /** The first centre with a non-zero latitude, if any. */
  function FirstNonZero(centers: seq<Coord>): (r: Option<Coord>)
    ensures r.Some? ==> r.value.lat != 0.0
    ensures r.Some? ==> exists i :: 0 <= i < |centers| && centers[i] == r.value &&
                          forall j :: 0 <= j < i ==> centers[j].lat == 0.0
    ensures r.None? <==> forall i :: 0 <= i < |centers| ==> centers[i].lat == 0.0
  {
    if centers == [] then None
    else if centers[0].lat != 0.0 then Some(centers[0])
    else FirstNonZero(centers[1..])
  }

  /** Over any sequence of centres, `setView` is called at most once in
      the component's lifetime: for the first centre with a non-zero
      latitude, and never if there is none. */
  lemma {:induction false} SetViewOnce(v: MapView, centers: seq<Coord>, zoom: int)
    ensures SyncAll(v, centers, zoom).views ==
      v.views + (if v.initialized then [] else
                   match FirstNonZero(centers)
                   case None => []
                   case Some(c) => [View(c, zoom)])
    ensures SyncAll(v, centers, zoom).initialized <==> v.initialized || FirstNonZero(centers).Some?
    decreases |centers|
  {
    if centers != [] {
      var v' := Sync(v, centers[0], zoom);
      SetViewOnce(v', centers[1..], zoom);
      if !v.initialized && centers[0].lat == 0.0 {
        assert v'.views == v.views;
      }
    }
  }

  /** From the component's mount, `setView` is called at most once. */
  lemma SetViewAtMostOnce(centers: seq<Coord>, zoom: int)
    ensures |SyncAll(Initial, centers, zoom).views| <= 1
  {
    SetViewOnce(Initial, centers, zoom);
  }
}

=== FILE: monitor.dfy ===
/** The geofence monitor of the `Map` component: its state and one pure
    transition per handler.

    Each handler reads the state it is given; React's scheduling of
    state updates and the closures that capture older state are not
    part of this model. */
module Monitor {
  import opened Options
  import opened Geo
  import opened Alert
  import MapUpdater

  /** The component's state hooks, its audio ref, the vibration requests
      made so far, whether the platform offers vibration at all, and the
      `MapUpdater` child's state. */
  datatype State = State(
    radius: real,
    center: Coord,
    liveLocation: Option<Coord>,
    marker: Option<Coord>,
    updateMode: bool,
    isInRadius: bool,
    audio: Option<Audio>,
    vibrations: seq<seq<nat>>,
    canVibrate: bool,
    view: MapUpdater.MapView)

  /** The radius the slider starts at, in metres. */
  const InitialRadius: real := 300.0

  /** The state at mount, before the audio effect and the first fix. */
  function Initial(canVibrate: bool): (s: State)
    ensures s.marker.None? && s.liveLocation.None? && !s.isInRadius && !s.updateMode
    ensures s.radius == InitialRadius && s.center == Origin
    ensures s.audio.None? && s.vibrations == [] && s.canVibrate == canVibrate
    ensures !s.view.initialized && s.view.views == [] && !s.view.updateMap
  {
    State(InitialRadius, Origin, None, None, false, false, None, [], canVibrate, MapUpdater.Initial)
  }

  /** The alert fields changed, and nothing else. */
  predicate OnlyAlertChanged(s: State, r: State)
  {
    r == s.(isInRadius := r.isInRadius, audio := r.audio, vibrations := r.vibrations)
  }

  /** `isInRadius` went from false to true. */
  predicate Entered(s: State, r: State)
  {
    !s.isInRadius && r.isInRadius
  }

  /** The vibration log after an entry: one more pattern when the
      platform can vibrate. */
  function Vibrate(s: State): (r: seq<seq<nat>>)
    ensures |r| == |s.vibrations| + (if s.canVibrate then 1 else 0)
    ensures r[..|s.vibrations|] == s.vibrations
    ensures s.canVibrate ==> r[|r| - 1] == Pattern
  {
    if s.canVibrate then s.vibrations + [Pattern] else s.vibrations
  }

  /** `checkLocationInCircle(location)`. With a marker, a location within
      the radius sets `isInRadius` and, on entry only, starts the sound
      and requests the vibration pattern; a location outside it clears
      `isInRadius` and stops and rewinds the sound. Without a marker the
      state is outside with the sound stopped, wherever the location is. */
  function Evaluate(s: State, location: Coord, metric: Metric): (r: State)
    ensures OnlyAlertChanged(s, r)
    ensures r.isInRadius <==> s.marker.Some? && Within(metric, location, s.marker.value, s.radius)
    ensures r.audio.Some? <==> s.audio.Some?
    ensures !r.isInRadius ==> AtRest(r.audio) && r.vibrations == s.vibrations
    ensures Entered(s, r) ==> r.vibrations == Vibrate(s)
    ensures Entered(s, r) ==> r.audio == PlayIfPaused(s.audio)
    ensures Entered(s, r) && s.audio.Some? ==> Playing(r.audio)
    ensures s.isInRadius && r.isInRadius ==> r == s
  {
    match s.marker
    case Some(m) =>
      if Within(metric, location, m, s.radius) then
        if !s.isInRadius then
          s.(isInRadius := true, audio := PlayIfPaused(s.audio), vibrations := Vibrate(s))
        else
          s
      else
        s.(isInRadius := false, audio := Stop(s.audio))
    case None =>
      s.(isInRadius := false, audio := Stop(s.audio))
  }

  /** A success callback of `watchPosition`: the fix becomes the live
      location and the map centre, and is evaluated against the marker. */
  function OnPosition(s: State, fix: Coord, metric: Metric): (r: State)
    ensures r.liveLocation == Some(fix) && r.center == fix
    ensures r.isInRadius <==> s.marker.Some? && Within(metric, fix, s.marker.value, s.radius)
    ensures r == Evaluate(s.(liveLocation := Some(fix), center := fix), fix, metric)
  {
    Evaluate(s.(liveLocation := Some(fix), center := fix), fix, metric)
  }

  /** The error callback of `watchPosition`: the map falls back to a
      fixed centre; the live location is left as it was. */
  function OnPositionError(s: State): (r: State)
    ensures r == s.(center := FallbackCenter)
  {
    s.(center := FallbackCenter)
  }

  /** One tick of the one-second interval. The interval only runs while a
      marker is set, and its callback only evaluates when there is a live
      location; in every other case nothing changes. */
  function Tick(s: State, metric: Metric): (r: State)
    ensures s.marker.None? || s.liveLocation.None? ==> r == s
    ensures s.marker.Some? && s.liveLocation.Some? ==>
      r == Evaluate(s, s.liveLocation.value, metric) &&
      (r.isInRadius <==> Within(metric, s.liveLocation.value, s.marker.value, s.radius))
  {
    if s.marker.Some? && s.liveLocation.Some? then Evaluate(s, s.liveLocation.value, metric) else s
  }

  /** `handleMapClick`: in update mode the click places the marker and
      leaves update mode; outside it the click is ignored. */
  function MapClick(s: State, at: Coord): (r: State)
    ensures s.updateMode ==> r.marker == Some(at) && !r.updateMode
    ensures s.updateMode ==> r == s.(marker := r.marker, updateMode := r.updateMode)
    ensures !s.updateMode ==> r == s
  {
    if s.updateMode then s.(marker := Some(at), updateMode := false) else s
  }

  /** A geocoder selection in the search field sets the marker, whatever
      the update mode. */
  function SearchSelect(s: State, x: real, y: real): (r: State)
    ensures r.marker == Some(Coord(y, x))
    ensures r == s.(marker := r.marker)
  {
    s.(marker := Some(FromSearchResult(x, y)))
  }

  /** The Update/Done button. */
  function ToggleUpdateMode(s: State): (r: State)
    ensures r.updateMode != s.updateMode
    ensures r == s.(updateMode := r.updateMode)
  {
    s.(updateMode := !s.updateMode)
  }

  /** `handleClearClick`: the marker goes, the state is outside, and the
      sound is stopped and rewound; the live location, radius and update
      mode stay. */
  function Clear(s: State): (r: State)
    ensures r.marker.None? && !r.isInRadius && AtRest(r.audio)
    ensures r.audio.Some? <==> s.audio.Some?
    ensures r == s.(marker := None, isInRadius := false, audio := r.audio)
  {
    s.(marker := None, isInRadius := false, audio := Stop(s.audio))
  }

  /** The Locate button re-centres the map on the live location, if any. */
  function Locate(s: State): (r: State)
    ensures s.liveLocation.Some? ==> r == s.(center := s.liveLocation.value)
    ensures s.liveLocation.None? ==> r == s
  {
    match s.liveLocation
    case Some(here) => s.(center := here)
    case None => s
  }

  /** The slider sets the radius. The next tick re-evaluates against it;
      the handler itself evaluates nothing. */
  function SetRadius(s: State, radius: real): (r: State)
    ensures r.radius == radius
    ensures r == s.(radius := radius)
  {
    s.(radius := radius)
  }

  /** The mount effect creates the audio element. */
  function MountAudio(s: State): (r: State)
    ensures r.audio == Some(Fresh) && AtRest(r.audio)
    ensures r == s.(audio := r.audio)
  {
    s.(audio := Some(Fresh))
  }

  /** Playback of the audio element advances by `elapsed` seconds. */
  function AudioPlayed(s: State, elapsed: real): (r: State)
    ensures Playing(r.audio) <==> Playing(s.audio)
    ensures r == s.(audio := r.audio)
    ensures r.audio.Some? <==> s.audio.Some?
    ensures !Playing(s.audio) || elapsed <= 0.0 ==> r == s
    ensures Playing(s.audio) && elapsed > 0.0 ==> r.audio.value.position == s.audio.value.position + elapsed
    ensures r.audio.Some? ==> r.audio.value.ended == s.audio.value.ended
  {
    s.(audio := Progress(s.audio, elapsed))
  }

  /** The clip plays to its end and the element pauses by itself. */
  function AudioEnded(s: State): (r: State)
    ensures !Playing(r.audio)
    ensures r == s.(audio := r.audio)
    ensures r.audio.Some? <==> s.audio.Some?
    ensures Playing(s.audio) ==> r.audio.value.ended && r.audio.value.position == s.audio.value.position
    ensures !Playing(s.audio) ==> r == s
  {
    s.(audio := Ended(s.audio))
  }

  /** The `MapUpdater` effect runs with the current centre: the view
      becomes initialised at the first non-zero latitude, and `setView`
      is called for that centre only. */
  function Render(s: State): (r: State)
    ensures r == s.(view := r.view)
    ensures r.view.initialized <==> s.view.initialized || s.center.lat != 0.0
    ensures !s.view.initialized && s.center.lat != 0.0 ==>
      r.view.views == s.view.views + [MapUpdater.View(s.center, MapUpdater.Zoom)]
    ensures s.view.initialized || s.center.lat == 0.0 ==> r.view.views == s.view.views
  {
    s.(view := MapUpdater.Sync(s.view, s.center, MapUpdater.Zoom))
  }

  // Properties relating several handlers.

  /** Evaluating again at the same location changes nothing: the alert
      fires once per entry, and stopping an already stopped alert is
      harmless. */
  lemma EvaluateIdempotent(s: State, location: Coord, metric: Metric)
    ensures Evaluate(Evaluate(s, location, metric), location, metric) == Evaluate(s, location, metric)
  {
  }

  /** A cleared monitor is a fixed point of evaluation: until a new marker
      is set, no location brings it back inside. */
  lemma ClearIsQuiet(s: State, location: Coord, metric: Metric)
    ensures Evaluate(Clear(s), location, metric) == Clear(s)
    ensures Tick(Clear(s), metric) == Clear(s)
  {
  }

  /** The boundary is inclusive: with a marker, a location exactly one
      radius away evaluates as inside, and one any further away as
      outside. */
  lemma EvaluateBoundary(s: State, location: Coord, metric: Metric)
    requires s.marker.Some?
    ensures metric(location, s.marker.value) == s.radius ==> Evaluate(s, location, metric).isInRadius
    ensures metric(location, s.marker.value) > s.radius ==> !Evaluate(s, location, metric).isInRadius
  {
  }

  /** One click in update mode places the marker; further clicks are
      ignored until the button is pressed again. */
  lemma OneMarkerPerUpdate(s: State, first: Coord, second: Coord)
    requires s.updateMode
    ensures MapClick(MapClick(s, first), second) == MapClick(s, first)
  {
  }

  /** Pressing the button twice restores the state. */
  lemma ToggleTwice(s: State)
    ensures ToggleUpdateMode(ToggleUpdateMode(s)) == s
  {
  }
}

=== FILE: options.dfy ===
/** The nullable values of the component (`[number, number] | null`,
    a ref that may still be `null`) as an explicit Some/None. */
module Options {

  datatype Option<+T> = None | Some(value: T)
}

=== FILE: scenarios.dfy ===
/** Concrete sessions: the alert starting at the marker, staying off far
    from it, stopping on Clear, starting when the radius grows, and the
    inside flag surviving a marker move. Distances are stated as facts
    about the metric, whatever the host computes them with. */
module Scenarios {
  import opened Options
  import opened Geo
  import opened Alert
  import opened Monitor
  import opened Session
  import MapUpdater

  /** Mount the audio element, place the marker by search at
      `[lat, lng] = [y, x]`, then receive a fix at `live`. */
  function Placed(marker: Coord, live: Coord, metric: Metric): State
  {
    var mounted := Step(Initial(true), AudioMounted, metric);
    var searched := Step(mounted, Search(marker.lng, marker.lat), metric);
    Step(searched, Fix(live), metric)
  }

  /** The three steps of `Placed` are the mount effect, the search
      selection and the position callback. */
  lemma PlacedHandlers(marker: Coord, live: Coord, metric: Metric)
    ensures Placed(marker, live, metric) ==
      OnPosition(SearchSelect(MountAudio(Initial(true)), marker.lng, marker.lat), live, metric)
  {
    var mounted := Step(Initial(true), AudioMounted, metric);
    assert mounted == MountAudio(Initial(true));
    var searched := Step(mounted, Search(marker.lng, marker.lat), metric);
    assert searched == SearchSelect(mounted, marker.lng, marker.lat);
    assert Step(searched, Fix(live), metric) == OnPosition(searched, live, metric);
  }

  /** The state of a session that has entered a geofence centred on the
      origin, with the live location there too. */
  const InsideAtOrigin: State :=
    State(InitialRadius, Origin, Some(Origin), Some(Origin), false, true,
          Some(Audio(false, 0.0, false)), [Pattern], true, MapUpdater.Initial)

  /** Placing the marker at the live location enters its geofence. */
  lemma PlacedAtOrigin(metric: Metric)
    requires metric(Origin, Origin) == 0.0
    ensures Placed(Origin, Origin, metric) == InsideAtOrigin
  {
    PlacedHandlers(Origin, Origin, metric);
  }

  /** Distance 0 is within 300 m: the monitor is inside, the sound plays
      from the start and one vibration pattern is requested. */
  lemma AlertAtMarker(metric: Metric)
    requires metric(Origin, Origin) == 0.0
    ensures Placed(Origin, Origin, metric).isInRadius
    ensures Placed(Origin, Origin, metric).audio == Some(Audio(false, 0.0, false))
    ensures Placed(Origin, Origin, metric).vibrations == [Pattern]
  {
    PlacedHandlers(Origin, Origin, metric);
  }

  /** A marker about 1.1 km away, outside the default 300 m radius: no
      alert, no vibration. */
  lemma NoAlertFarAway(metric: Metric)
    requires metric(Origin, Coord(0.0, 0.01)) > 300.0
    ensures var r := Placed(Coord(0.0, 0.01), Origin, metric);
      !r.isInRadius && AtRest(r.audio) && r.vibrations == []
  {
    PlacedHandlers(Coord(0.0, 0.01), Origin, metric);
  }

  /** Clearing while the alert has been playing for 2.5 s stops it and
      rewinds it to the start, and a later fix at the old marker does not
      restart it. */
  lemma ClearStopsAlert(metric: Metric)
    requires metric(Origin, Origin) == 0.0
    ensures var played := Step(Placed(Origin, Origin, metric), AudioPlaying(2.5), metric);
      var cleared := Step(played, ClearMarker, metric);
      var r := Step(cleared, Fix(Origin), metric);
      && played.audio == Some(Audio(false, 2.5, false))
      && !cleared.isInRadius && cleared.audio == Some(Audio(true, 0.0, false))
      && !r.isInRadius && r.audio == Some(Audio(true, 0.0, false)) && r.vibrations == [Pattern]
  {
    PlacedAtOrigin(metric);
    var inside := InsideAtOrigin;
    var played := Step(inside, AudioPlaying(2.5), metric);
    assert played == AudioPlayed(inside, 2.5);
    var cleared := Step(played, ClearMarker, metric);
    assert cleared == Clear(played);
    assert Step(cleared, Fix(Origin), metric) == OnPosition(cleared, Origin, metric);
  }

  /** The clip plays for 4 s and reaches its end while the user is still
      inside: the monitor stays inside and the element is paused at the
      end. */
  lemma ClipEndsInside(metric: Metric)
    ensures var played := Step(InsideAtOrigin, AudioPlaying(4.0), metric);
      Step(played, AudioFinished, metric) == InsideAtOrigin.(audio := Some(Audio(true, 4.0, true)))
  {
    var played := Step(InsideAtOrigin, AudioPlaying(4.0), metric);
    assert played == AudioPlayed(InsideAtOrigin, 4.0);
    assert Step(played, AudioFinished, metric) == AudioEnded(played);
  }

  /** The clip plays to its end while the user is still inside; leaving
      rewinds it, and coming back plays it again from the start with a
      second vibration. */
  lemma ReentryReplaysFromStart(far: Coord, metric: Metric)
    requires metric(Origin, Origin) == 0.0
    requires metric(far, Origin) > InitialRadius
    ensures var played := Step(Placed(Origin, Origin, metric), AudioPlaying(4.0), metric);
      var finished := Step(played, AudioFinished, metric);
      var left := Step(finished, Fix(far), metric);
      var back := Step(left, Fix(Origin), metric);
      && finished.isInRadius && finished.audio == Some(Audio(true, 4.0, true))
      && !left.isInRadius && left.audio == Some(Audio(true, 0.0, false))
      && back.isInRadius && back.audio == Some(Audio(false, 0.0, false))
      && back.vibrations == [Pattern, Pattern]
  {
    PlacedAtOrigin(metric);
    ClipEndsInside(metric);
    var finished := InsideAtOrigin.(audio := Some(Audio(true, 4.0, true)));
    var left := Step(finished, Fix(far), metric);
    assert left == OnPosition(finished, far, metric);
    assert left == finished.(liveLocation := Some(far), center := far, isInRadius := false,
                             audio := Some(Audio(true, 0.0, false)));
    assert Step(left, Fix(Origin), metric) == OnPosition(left, Origin, metric);
  }

  /** With the live location 1000 m from the marker, widening the radius
      from 300 m to 5000 m makes the next tick enter the geofence. */
  lemma WiderRadiusEnters(live: Coord, metric: Metric)
    requires metric(live, Origin) == 1000.0
    ensures var before := Placed(Origin, live, metric);
      var after := Step(Step(before, Slide(5000.0), metric), Tick, metric);
      && !before.isInRadius
      && after.isInRadius && Playing(after.audio) && after.vibrations == [Pattern]
  {
    var before := Placed(Origin, live, metric);
    PlacedHandlers(Origin, live, metric);
    var widened := Step(before, Slide(5000.0), metric);
    assert widened == SetRadius(before, 5000.0);
    assert Step(widened, Tick, metric) == Monitor.Tick(widened, metric);
  }

  /** Moving the marker does not reset `isInRadius`: a user inside the old
      geofence who places a new marker whose geofence also holds them
      gets no new alert on the next tick. */
  lemma MovedMarkerKeepsStaleInside(moved: Coord, metric: Metric)
    requires metric(Origin, Origin) == 0.0
    requires metric(Origin, moved) <= InitialRadius
    ensures var inside := Placed(Origin, Origin, metric);
      var r := Step(Step(inside, Search(moved.lng, moved.lat), metric), Tick, metric);
      && r.isInRadius && r.marker == Some(moved)
      && r.vibrations == inside.vibrations == [Pattern]
  {
    PlacedAtOrigin(metric);
    var inside := InsideAtOrigin;
    var searched := Step(inside, Search(moved.lng, moved.lat), metric);
    assert searched == SearchSelect(inside, moved.lng, moved.lat);
    assert Step(searched, Tick, metric) == Monitor.Tick(searched, metric);
  }
}

=== FILE: session.dfy ===
/** A monitoring session: the events that reach the `Map` component, one
    step per event, and the invariants every session keeps. */
module Session {
  import opened Geo
  import opened Alert
  import opened Monitor

  datatype Event =
    | Fix(at: Coord)              // watchPosition success callback
    | FixError                    // watchPosition error callback
    | Tick                        // the one-second interval
    | Click(at: Coord)            // a click on the map
    | Search(x: real, y: real)    // a geocoder result selected in the search field
    | ToggleUpdate                // the Update/Done button
    | ClearMarker                 // the Clear button
    | LocateMe                    // the Locate button
    | Slide(radius: real)         // the radius slider
    | AudioMounted                // the mount effect creating the audio element
    | AudioPlaying(elapsed: real) // playback advancing
    | AudioFinished               // the clip playing to its end
    | ViewEffect                  // the MapUpdater effect

  /** The events that can place a marker. */
  predicate MaySetMarker(e: Event)
  {
    e.Click? || e.Search?
  }

  /** What holds in every state a session reaches:
      - the monitor is inside only while a marker is set;
      - the sound is audible only while inside;
      - every vibration request is the alert pattern;
      - `setView` has been called once if the map view is initialised,
        never otherwise, and only for a centre with a non-zero latitude. */
  ghost predicate Inv(s: State)
  {
    && (s.isInRadius ==> s.marker.Some?)
    && (Playing(s.audio) ==> s.isInRadius)
    && (forall i :: 0 <= i < |s.vibrations| ==> s.vibrations[i] == Pattern)
    && |s.view.views| == (if s.view.initialized then 1 else 0)
    && (forall i :: 0 <= i < |s.view.views| ==> s.view.views[i].center.lat != 0.0)
  }

  /** The handler an event runs. */
  function Step(s: State, e: Event, metric: Metric): (r: State)
    ensures Inv(s) ==> Inv(r)
    ensures r.canVibrate == s.canVibrate
    ensures r.vibrations == (if Entered(s, r) then Vibrate(s) else s.vibrations)
    ensures Playing(r.audio) && !Playing(s.audio) ==> Entered(s, r)
    ensures !MaySetMarker(e) && s.marker.None? ==> r.marker.None?
    ensures !MaySetMarker(e) && s.marker.None? && !s.isInRadius ==> !r.isInRadius
  {
    match e
    case Fix(at) => OnPosition(s, at, metric)
    case FixError => OnPositionError(s)
    case Tick => Monitor.Tick(s, metric)
    case Click(at) => MapClick(s, at)
    case Search(x, y) => SearchSelect(s, x, y)
    case ToggleUpdate => ToggleUpdateMode(s)
    case ClearMarker => Clear(s)
    case LocateMe => Locate(s)
    case Slide(radius) => SetRadius(s, radius)
    case AudioMounted => MountAudio(s)
    case AudioPlaying(elapsed) => AudioPlayed(s, elapsed)
    case AudioFinished => AudioEnded(s)
    case ViewEffect => Render(s)
  }

  /** The state after the events in order. */
  function Run(s: State, events: seq<Event>, metric: Metric): State
    decreases |events|
  {
    if events == [] then s else Run(Step(s, events[0], metric), events[1..], metric)
  }

  /** The number of entries into the geofence along a run. */
  function Entries(s: State, events: seq<Event>, metric: Metric): nat
    decreases |events|
  {
    if events == [] then 0
    else
      var s' := Step(s, events[0], metric);
      (if Entered(s, s') then 1 else 0) + Entries(s', events[1..], metric)
  }

  lemma InitialInv(canVibrate: bool)
    ensures Inv(Initial(canVibrate))
  {
  }

  /** Every state a session reaches keeps the invariant. */
  lemma {:induction false} RunKeepsInv(s: State, events: seq<Event>, metric: Metric)
    requires Inv(s)
    ensures Inv(Run(s, events, metric))
    decreases |events|
  {
    if events != [] {
      RunKeepsInv(Step(s, events[0], metric), events[1..], metric);
    }
  }

  /** From mount, the monitor is never inside without a marker, the sound
      never plays outside, and the map view is set at most once. */
  lemma SessionSafety(canVibrate: bool, events: seq<Event>, metric: Metric)
    ensures var r := Run(Initial(canVibrate), events, metric);
      && (r.isInRadius ==> r.marker.Some?)
      && (Playing(r.audio) ==> r.isInRadius)
      && |r.view.views| <= 1
  {
    InitialInv(canVibrate);
    RunKeepsInv(Initial(canVibrate), events, metric);
  }

  /** The vibration pattern is requested exactly once per entry into the
      geofence, when the platform can vibrate, and never otherwise. */
  lemma {:induction false} VibratesOncePerEntry(s: State, events: seq<Event>, metric: Metric)
    ensures |Run(s, events, metric).vibrations| ==
      |s.vibrations| + (if s.canVibrate then Entries(s, events, metric) else 0)
    ensures Run(s, events, metric).canVibrate == s.canVibrate
    decreases |events|
  {
    if events != [] {
      VibratesOncePerEntry(Step(s, events[0], metric), events[1..], metric);
    }
  }

  /** After Clear, no sequence of events that cannot place a marker brings
      the monitor back inside. */
  lemma ClearedStaysOutside(s: State, events: seq<Event>, metric: Metric)
    requires forall i :: 0 <= i < |events| ==> !MaySetMarker(events[i])
    ensures Run(Clear(s), events, metric).marker.None?
    ensures !Run(Clear(s), events, metric).isInRadius
  {
    StaysOutside(Clear(s), events, metric);
  }

  lemma {:induction false} StaysOutside(s: State, events: seq<Event>, metric: Metric)
    requires s.marker.None? && !s.isInRadius
    requires forall i :: 0 <= i < |events| ==> !MaySetMarker(events[i])
    ensures Run(s, events, metric).marker.None?
    ensures !Run(s, events, metric).isInRadius
    decreases |events|
  {
    if events != [] {
      StaysOutside(Step(s, events[0], metric), events[1..], metric);
    }
  }
}
